=== FILE: README.md ===
# hydna-objc HY protocol core, modelled in Dafny

This project models the statable core of the hydna Objective-C client in its
current `HY`-prefixed protocol revision. The repository holds only headers, so
the model follows what they state: layouts, constants and documented
contracts. Behaviour the headers do not state (how a request is queued or
cancelled, what destroy and deallocChannel do beyond their one-line
comments) is reconstructed, and each such reconstruction is listed under
"Left out" as an assumption of this model.

- **Bits** (`bits.dfy`): `>>`, `<<`, `&` and `|` on naturals, and the
  `TAKE_N_BITS_FROM(b, p, n)` macro as `TakeNBits`. AND and OR are defined bit
  by bit; lemmas relate them to division and remainder by powers of two.
- **Frames** (`frames.dfy`): the opcode, open-flag, signal-flag and
  content-type enumerations with their numeric values. It also holds the
  header byte layout (flag in bits 0–2, opcode in bits 3–5, content type in
  bit 6), the 10 KB payload limit, and the frame record with its constructor
  and `setChannel` rewrite.
- **Queues** (`queues.dfy`): the insertion-ordered queue a channel keeps twice,
  once for data and once for signals. `Pop` on an empty queue gives nil.
- **Channels** (`channels.dfy`): the eight channel modes as unions of READ,
  WRITE and EMIT. It also holds the queued value records (`HYChannelData`,
  `HYChannelSignal`), the close cause (`HYChannelError`), the per-channel
  follow-redirects flag, the recorded error and its check, and the two queues.
- **OpenRequests** (`open_requests.dfy`): the open request record. It has five
  read-only fields and a mutable `sent` flag.
- **Connections** (`connections.dfy`): the connection's state, shaped after
  the field list of the older `Connection` interface. It covers the reference
  count, submitting and cancelling open requests, and the bound on redirect
  attempts.
- **ConnectionRegistry** (`registry.dfy`): the process-wide cache of
  connections keyed by (host, port, auth) and the class-level
  follow-redirects flag.
- **Wrappers** (`wrappers.dfy`): `Option` (a reference that may be nil) and
  `Outcome` (a check that passes or raises).

All state is immutable. Each operation is a pure function from the old state
to the new one, returning a pair where the Objective-C method returns a value
and mutates its receiver. Object identity (a channel owning a request, a
registered connection) is a natural-number handle; an open request is
identified by its read-only fields.

The doc comment of `isDataEmpty` (src/HYChannel.h:238-243) says "signal queue"; the
model follows the method's name and checks the data queue.

## Model

| member | source | states |
|---|---|---|
| Bits.TakeNBits | src/HYConnection.h:10 | the macro's result is (b / 2^p) mod 2^n, so it is always below 2^n |
| Bits.AndLowMask | src/HYConnection.h:10 | AND with the mask (1 << n) - 1 keeps exactly the value modulo 2^n |
| Bits.AndSingleBit | src/HYFrame.h:40-41 | AND with the single-bit mask 1 << k isolates bit k of the byte, left in place |
| Bits.OrShiftedIsSum | src/HYFrame.h:35-42 | OR-ing a field shifted above bit k with a value below 2^k adds them, so fields with disjoint masks combine without interference |
| Frames.OpcodeValue | src/HYFrame.h:11-19 | every declared opcode (NOOP = KEEPALIVE = 0 to RESOLVE = 4) fits the 3-bit opcode field |
| Frames.OpcodeOf | src/HYFrame.h:11-19 | a number names an opcode exactly when it is at most RESOLVE (4), and that opcode's value is the number |
| Frames.OpenFlagValue | src/HYFrame.h:21-26 | the open flags ALLOW 0, REDIRECT 1 and DENY 7 fit within FLAG_BITMASK |
| Frames.OpenFlagOf | src/HYFrame.h:21-26 | a number names an open flag exactly when it is 0, 1 or 7, and that flag's value is the number |
| Frames.SignalFlagValue | src/HYFrame.h:28-33 | the signal flags EMIT 0, END 1 and ERROR 7 fit within FLAG_BITMASK |
| Frames.SignalFlagOf | src/HYFrame.h:28-33 | a number names a signal flag exactly when it is 0, 1 or 7, and that flag's value is the number |
| Frames.ContentTypeValue | src/HYFrame.h:44-47 | both content types (UTF8 0, BINARY 1) fit the single content-type bit |
| Frames.ContentTypeOf | src/HYFrame.h:44-47 | a number names a content type exactly when it is below 2, and that type's value is the number |
| Frames.EnumRoundTrips | src/HYFrame.h:11-47 | every opcode, flag and content type comes back unchanged from its numeric value |
| Frames.FlagOf | src/HYFrame.h:37 | `b & FLAG_BITMASK` is the low three bits (b mod 8) and equals TAKE_N_BITS_FROM(b, 0, 3) |
| Frames.OpOf | src/HYFrame.h:38-39 | `(b >> OP_BITPOS) & OP_BITMASK` is bits 3 to 5 ((b / 8) mod 8) and equals TAKE_N_BITS_FROM(b, 3, 3) |
| Frames.CTypeOf | src/HYFrame.h:40-41 | `(b & CTYPE_BITMASK) >> CTYPE_BITPOS` is bit 6 ((b / 64) mod 2) and equals TAKE_N_BITS_FROM(b, 6, 1) |
| Frames.ConstantValues | src/HYFrame.h:38-41 | OP_BITMASK = (1 << 3) - 1 is 7 and CTYPE_BITMASK = 1 << 6 is 0x40 |
| Frames.MasksDisjoint | src/HYFrame.h:35-42 | the flag, opcode and content-type masks are pairwise disjoint and together cover bits 0 to 6 |
| Frames.PackHeader | src/HYFrame.h:35-47 | OR-ing flag < 8, opcode << 3 (opcode < 8) and content type << 6 (type < 2) gives the byte flag + 8·opcode + 64·type, which is below 0x80 |
| Frames.UnpackPack | src/HYFrame.h:35-42 | reading the flag, opcode and content-type fields of a packed byte gives back exactly the values packed |
| Frames.PackUnpack | src/HYFrame.h:35-42 | every byte below 0x80 is the packing of its own three fields (the reverse round trip) |
| Frames.TakeNBitsRecoversFields | src/HYConnection.h:10 | the macro with (p, n) = (0, 3), (3, 3), (6, 1) recovers flag, opcode and content type from a packed byte |
| Frames.EncodeHeader | src/HYFrame.h:35-47 | an encoded header byte never sets bit 7 |
| Frames.DecodeHeader | src/HYFrame.h:11-42 | a header byte decodes exactly when its opcode field holds a declared opcode, and a decoded flag fits FLAG_BITMASK |
| Frames.HeaderRoundTrip | src/HYFrame.h:11-47 | decoding an encoded header gives the header back |
| Frames.HeaderBytesRoundTrip | src/HYFrame.h:35-42 | encoding a decoded byte below 0x80 gives the byte back |
| Frames.NewFrame | src/HYFrame.h:49-62 | a frame is built exactly when the payload is within PAYLOAD_MAX_LIMIT; it then keeps the payload, the channel id as an unsigned 32-bit value, and a header byte that decodes to the given opcode, flag and content type |
| Frames.HeaderByte | src/HYFrame.h:35-47 | a frame's header byte never sets bit 7 |
| Frames.Size | src/HYFrame.h:72 | a frame's size is HEADER_SIZE plus its payload length, so at most HEADER_SIZE + PAYLOAD_MAX_LIMIT (the formula is an assumption, see below) |
| Frames.SetChannel | src/HYFrame.h:76 | rewriting the channel id keeps the frame valid, stores the new id as an unsigned 32-bit value and leaves opcode, flag, content type and payload unchanged |
| Frames.SetChannelKeepsHeader | src/HYFrame.h:76 | a channel rewrite leaves the header byte and the size as they were |
| Frames.SetChannelLastWins | src/HYFrame.h:76 | of two channel rewrites only the last is visible |
| Queues.Empty | src/HYChannel.h:238-243 | a new queue is empty |
| Queues.Add | src/HYChannel.h:223-228 | adding appends the item behind everything already queued, which keeps its order |
| Queues.Pop | src/HYChannel.h:230-236 | pop returns nil and leaves the queue unchanged exactly when it is empty; otherwise it returns the oldest item and keeps the rest |
| Queues.Drain | src/HYChannel.h:230-243 | popping until empty returns every queued item, oldest first |
| Queues.AddAllAppends | src/HYChannel.h:223-228 | adding a sequence of items puts them behind the queued ones in the order added |
| Queues.FifoOrder | src/HYChannel.h:223-243 | items added to an empty queue come out in insertion order |
| Queues.AddKeepsHead | src/HYChannel.h:223-236 | adding behind a non-empty queue does not change which item pops next; on an empty queue the added item pops next |
| Channels.ModeOf | src/HYChannel.h:12-21 | the mode built from chosen rights is one of 0..7 and is readable, writable and emit-capable exactly as chosen |
| Channels.ModeBits | src/HYChannel.h:12-21 | the OR of the READ, WRITE and EMIT bits chosen is below 8 and carries exactly those bits |
| Channels.CompositeModes | src/HYChannel.h:12-21 | READWRITE, READEMIT, WRITEEMIT and READWRITEEMIT are the ORs of their component bits |
| Channels.ModesAreThreeBits | src/HYChannel.h:12-21 | the eight declared modes are exactly the values 0..7, and each is rebuilt from its read, write and emit bits |
| Channels.NewChannel | src/HYChannel.h:50-53 | a new channel is not destroyed, has no recorded error and has empty data and signal queues |
| Channels.GetFollowRedirects | src/HYChannel.h:57-62 | setting the per-channel flag to the value the getter returns changes nothing |
| Channels.FollowRedirectsReadBack | src/HYChannel.h:57-69 | after setFollowRedirects(v) the getter returns v |
| Channels.SetFollowRedirects | src/HYChannel.h:64-69 | setting the per-channel flag to v stores v and changes nothing else about the channel |
| Channels.CheckForChannelError | src/HYChannel.h:210-214 | the check fails exactly when an error is recorded, with that error |
| Channels.Destroy | src/HYChannel.h:210-221 | destroy marks the channel destroyed; on a live channel it records the cause, so the check then fails with that cause, or passes for nil; on a destroyed channel it changes nothing |
| Channels.DestroyedStaysPut | src/HYChannel.h:216-221 | any series of destroy calls on a destroyed channel leaves it exactly as it was |
| Channels.FinalErrorKept | src/HYChannel.h:210-221 | after any series of destroy calls on a live channel, the check reports the cause of the first one (passing when it was nil) |
| Channels.AddData | src/HYChannel.h:223-228 | adding data appends it to the data queue and leaves the signal queue, error and flag unchanged |
| Channels.IsDataEmpty | src/HYChannel.h:238-243 | the data queue is empty exactly when it equals the queue a new channel starts with |
| Channels.PopData | src/HYChannel.h:230-236 | pop gives nil and leaves the channel unchanged exactly when the data queue is empty; otherwise it removes and returns the oldest data; the signal queue is untouched |
| Channels.AddSignal | src/HYChannel.h:245-250 | adding a signal appends it to the signal queue and leaves the data queue, error and flag unchanged |
| Channels.PopSignal | src/HYChannel.h:252-258 | pop gives nil and leaves the channel unchanged exactly when the signal queue is empty; otherwise it removes and returns the oldest signal; the data queue is untouched |
| Channels.IsSignalEmpty | src/HYChannel.h:260-265 | the signal queue is empty exactly when it equals the queue a new channel starts with |
| Channels.ChannelData.IsBinaryContent | src/HYChannelData.h:18 | data is binary exactly when its content-type bit is BINARY (1), and then it is not UTF8 |
| Channels.ChannelData.IsUtf8Content | src/HYChannelData.h:19 | data is UTF8 exactly when its content-type bit is UTF8 (0) |
| Channels.ChannelSignal.IsBinaryContent | src/HYChannelSignal.h:19 | a signal is binary exactly when its content-type bit is BINARY (1), and then it is not UTF8 |
| Channels.ChannelSignal.IsUtf8Content | src/HYChannelSignal.h:20 | a signal is UTF8 exactly when its content-type bit is UTF8 (0) |
| Channels.QueuesIndependent | src/HYChannel.h:223-265 | adding to one queue does not change what the other pops next, and adds to the two queues commute |
| Channels.DrainData | src/HYChannel.h:223-243 | popping data until the queue is empty returns exactly the queued items in insertion order and leaves the signal queue and error alone |
| OpenRequests.InitWith | src/HYOpenRequest.h:24-28 | the getters channel, ch, path, token and frame return exactly the values given at construction; sent starts cleared |
| OpenRequests.SetSent | src/HYOpenRequest.h:21 | after setSent(v) sent is v, and the five read-only fields are unchanged |
| OpenRequests.ReadOnlyFieldsNeverChange | src/HYOpenRequest.h:16-21 | after any series of setSent calls the read-only fields still hold their construction values and sent holds the last value set |
| OpenRequests.SetSentLastWins | src/HYOpenRequest.h:21 | of two setSent calls only the last is visible |
| Connections.InitWithHost | src/HYConnection.h:47-55 | a new connection carries its (host, port, auth) key, has every lifecycle flag clear (so hasHandshaked is NO), has reference count 0 and holds no open or resolve requests, queued or pending, and no channels |
| Connections.HandshakeDecidesSending | src/HYConnection.h:59-64 | for an accepted open, hasHandshaked is YES exactly when the request becomes its channel id's pending open at once, and NO exactly when it joins the wait queue instead |
| Connections.AllocChannel | src/HYConnection.h:66-70 | allocChannel raises the channel reference count by exactly one and changes nothing else |
| Connections.DeallocChannel | src/HYConnection.h:72-77 | deallocChannel(ch) lowers the reference count by exactly one and removes ch, and only ch, from the open channels |
| Connections.AllocChannelsCount | src/HYConnection.h:66-70 | n allocations raise the reference count by exactly n and change nothing else |
| Connections.DeallocChannelsCount | src/HYConnection.h:72-77 | each deallocation lowers the reference count by exactly one and leaves pending requests alone |
| Connections.AllocDeallocBalance | src/HYConnection.h:66-77 | after N channels attach and N detach the reference count is back to where it started |
| Connections.RemoveRequest | src/HYConnection.h:96-102 | removing a request from a wait queue drops every copy of it and keeps every other request |
| Connections.RemoveRequestSnoc | src/HYConnection.h:96-102 | removal distributes over appending one request at the back, so the kept requests stay in their queue order |
| Connections.EnqueueOpen | src/HYConnection.h:88-94 | before the handshake the request goes to the back of its channel id's wait queue; other ids' queues, the pending opens and the rest of the connection are unchanged |
| Connections.SendOpen | src/HYConnection.h:88-94 | after the handshake the request becomes its channel id's pending open with sent set; other pending opens, the wait queues and the rest of the connection are unchanged |
| Connections.DropWaiting | src/HYConnection.h:96-102 | only copies of the request leave its channel id's wait queue; every other queue and the rest of the connection are unchanged |
| Connections.DropPending | src/HYConnection.h:96-102 | the pending open of the request's channel id is removed only when it is that request; every other pending open and the rest of the connection are unchanged |
| Connections.RequestOpen | src/HYConnection.h:88-94 | a request is accepted exactly when the connection is not destroying and its channel id has no open in flight; before the handshake it joins the back of that id's wait queue, after it it becomes the id's pending, sent request; a refusal changes nothing; other channel ids' waiting and pending requests, the flags, the open channels and the reference count never change |
| Connections.CancelOpen | src/HYConnection.h:96-102 | cancel returns YES exactly when the connection still held the request, which it then no longer holds; on NO nothing changes; only copies of the request leave its id's wait queue (the rest keep their order), that id's pending open goes only if it is the request, and requests for other ids, the flags, the open channels and the reference count are untouched |
| Connections.CancelTwice | src/HYConnection.h:96-102 | cancelling the same request a second time returns NO |
| Connections.CancelAfterRequest | src/HYConnection.h:88-102 | a request just accepted can be cancelled |
| Connections.RedirectAttempt | src/HYConnection.h:12 | a REDIRECT is followed exactly when following is on and fewer than MAX_REDIRECT_ATTEMPTS have been taken, and the new count stays within the bound |
| Connections.AttemptsAfter | src/HYConnection.h:12 | however many REDIRECT replies arrive, the number of redirect attempts followed never exceeds MAX_REDIRECT_ATTEMPTS |
| Connections.RedirectsFollowedUpToBound | src/HYConnection.h:12 | with following on, exactly min(n, MAX_REDIRECT_ATTEMPTS) of n redirects are followed from a fresh start |
| ConnectionRegistry.NewRegistry | src/HYConnection.h:22-30 | the process starts with no cached connection: no keys, no connections, and ids starting from 0 |
| ConnectionRegistry.GetConnectionWithHost | src/HYConnection.h:22-30 | for a registered (host, port, auth) key the existing connection is returned and nothing changes; only for an unseen key is a new connection created under a fresh id and registered |
| ConnectionRegistry.GetConnectionIdempotent | src/HYConnection.h:22-30 | asking twice for the same destination returns the same connection and leaves the registry unchanged |
| ConnectionRegistry.DistinctKeysDistinctConnections | src/HYConnection.h:22-30 | different destinations never share a connection |
| ConnectionRegistry.GetConnectionKeepsOthers | src/HYConnection.h:22-30 | a lookup leaves every other destination's connection in place |
| ConnectionRegistry.GetFollowRedirects | src/HYConnection.h:33-38 | setting the class-level flag to the value the getter returns changes nothing |
| ConnectionRegistry.SetFollowRedirects | src/HYConnection.h:40-45 | the class-level setFollowRedirects(v) stores v, and no connection changes |
| ConnectionRegistry.FollowRedirectsReadBack | src/HYConnection.h:33-45 | after the class-level setFollowRedirects(v) the getter returns v |
| ConnectionRegistry.AllocChannelOn | src/HYConnection.h:66-70 | allocChannel on a registered connection raises its reference count by one and changes nothing else about it; other connections, the set of registered ids, the key cache, the next id and the class-level flag are unchanged |
| ConnectionRegistry.DeallocChannelOn | src/HYConnection.h:72-77 | deallocChannel on a registered connection lowers its reference count by one and drops that channel, keeping its other open channels and every other field; other connections, the set of registered ids, the key cache, the next id and the class-level flag are unchanged |

## Left out

- Frames.Size: the header declares only `- (int)size;`. HEADER_SIZE plus the payload length is an assumption of this model; the 2-byte length field at LENGTH_OFFSET may or may not lie inside those five header bytes.
- Frame serialisation beyond the header byte: the `writeByte`/`writeBytes`/`writeShort`/`writeUnsignedInt`/`data` calls, byte order and the length field at LENGTH_OFFSET. The header states only HEADER_SIZE 5 and LENGTH_OFFSET 2 (src/HYFrame.h:6-9), not where each field goes.
- PAYLOAD_MAX_LIMIT, RESOLVE_CHANNEL and MAX_REDIRECT_ATTEMPTS are declared `extern` without values. PAYLOAD_MAX_LIMIT is taken as 10 × 1024 from its "(10kb)" comment. MAX_REDIRECT_ATTEMPTS is the `maxAttempts` parameter. RESOLVE_CHANNEL is not modelled.
- Frames.NewFrame: `initWithChannel:` and `setChannel:` take an `NSUInteger`; that the id is stored as a 32-bit value, and so reduced modulo 2^32, is an assumption of this model (the frame offers `writeUnsignedInt:`, but the headers do not show it is used for the id). The flag must fit FLAG_BITMASK, as the enumerations guarantee. `op` and `ctype` are typed as the opcode and content-type enumerations, although `initWithChannel:` takes an `NSUInteger` for both (src/HYFrame.h:56-60). That a payload over PAYLOAD_MAX_LIMIT yields no frame is an assumption of this model: the header shows only the `extern` limit and the initializer's signature.
- The `TAKE_N_BITS_FROM` macro's missing outer parentheses and trailing semicolon are a textual hazard, not behaviour; the intended arithmetic is modelled.
- Bytes are naturals below 256. `>>`, `<<`, `&` and `|` have their meaning on non-negative integers; C promotion and signed `char` are not modelled.
- Sockets, the handshake exchange, the reader loop, dispatch of inbound frames, redirect rewriting, and teardown when the reference count reaches zero. These are I/O and concurrency, and their logic is not in the headers.
- Connections.RequestOpen: the frame write is I/O and is represented only by the sent flag. The header states only that `requestOpen` returns YES if the request went well; queueing before the handshake and the one-open-per-channel-id rule are assumptions of this model.
- Connections.RequestOpen stores a copy of the request with `sent` set. In Objective-C the connection and the channel share one request object, so the channel's reference would also read `sent` as YES; the model's caller keeps its own unsent copy.
- OpenRequests.SameRequest identifies a request by its five read-only fields, not by object identity. Two distinct request objects with equal fields count as one request, so `cancelOpen` of one also removes the other. The request's frame is a value, so a later `setChannel:` on a shared frame object is not seen through the request.
- Connections.CancelOpen: the header says only that it returns YES on success. That it succeeds exactly for a request the connection still holds, waiting or pending, sent or not, is an assumption of this model; no reply to a cancelled open that was already sent is modelled.
- Connections.DeallocChannel: the header says only "Decrease the reference count". That it also removes ch from the open channels is an assumption of this model; teardown at reference count zero is not modelled.
- `requestResolve`, the connection's `writeBytes:` and the resolve wait queue: the headers declare only their signatures. The resolve fields are kept in the state record but no operation changes them.
- The locks of the older revisions (src/Connection.h:18-27) and all thread synchronisation; the model is sequential.
- Channels.Destroy: the header says only "Internally destroy channel". That destroy is idempotent and a destroyed channel keeps its first cause is an assumption of this model. Its other effects (readiness flags, releasing queues, deallocating from the connection) are not stated in the header and are not modelled.
- Channels.NewChannel takes the initial follow-redirects value as a parameter, since `init` does not state its default.
- ConnectionRegistry.NewRegistry takes the initial class-level follow-redirects value as a parameter, since the header does not state its default.
- Channel `connect`, `writeBytes`, `writeString`, `emitBytes`, `emitString`, `close`, `isConnected`, `isClosing`, `channel`, `message`, `resolveSuccess` and `openSuccess`: their behaviour needs the transport and the URL parser. The readiness getters `isReadable`, `isWritable` and `hasSignalSupport` are modelled only as properties of a mode (`IsReadable`, `IsWritable`, `CanEmit`).
- The delegate callbacks (src/HYChannel.h:31-44).
- `HYChannelError`'s `fromOpenError`/`fromSigError` message lookups. Their tables are not in the headers, so the error is a plain record of reason, wasClean, hadError and wasDenied.
- URL parsing (HYURL.h) and host/interface lookups (HYHost.h).
- The earlier protocol revisions (Frame.h, Channel.h, Connection.h, OpenRequest.h, Packet.h, Stream.h and their companions), which use 7- and 8-byte headers. Only the field list of Connection.h guides the shape of the connection record.
- The older interface's `m_attempt` counter (src/Connection.h:41): the headers do not say what it counts. The redirect bound is modelled per open with the attempts taken as a parameter (`RedirectAttempt`), and the follow-redirects flag it consults is a parameter because the headers do not say whether the channel's or the class-level flag decides.

=== FILE: bits.dfy ===
/**
 Bitwise operations on non-negative integers, as the C preprocessor
 and the header byte of a frame use them. A byte is a natural below 256;
 `>>`, `<<`, `&` and `|` are given their meaning on naturals, so that the
 layout lemmas of the frame header can be stated without bit-vectors.
 */
module Bits {

  /** 2 to the power n: the value of `1 << n`. */
  function Pow2(n: nat): (r: nat)
    ensures r >= 1
  {
    if n == 0 then 1 else 2 * Pow2(n - 1)
  }

  /** Logical right shift `x >> p`: halve p times. */
  function Shr(x: nat, p: nat): nat
  {
    if p == 0 then x else Shr(x / 2, p - 1)
  }

  /** Left shift `x << p` (no width: callers bound the operands). */
  function Shl(x: nat, p: nat): nat
  {
    x * Pow2(p)
  }

  /** Bitwise AND, bit by bit from the least significant bit. */
  function And(a: nat, b: nat): (r: nat)
    ensures r <= a && r <= b
  {
    if a == 0 || b == 0 then 0
    else 2 * And(a / 2, b / 2) + (if a % 2 == 1 && b % 2 == 1 then 1 else 0)
  }

  /** Bitwise OR, bit by bit from the least significant bit. */
  function Or(a: nat, b: nat): (r: nat)
    ensures a <= r && b <= r && r <= a + b
  {
    if a == 0 then b
    else if b == 0 then a
    else 2 * Or(a / 2, b / 2) + (if a % 2 == 1 || b % 2 == 1 then 1 else 0)
  }

  /**
   The C macro `TAKE_N_BITS_FROM(b, p, n)`: shift the wanted field down to
   bit 0 and keep its n low bits with the mask `(1 << n) - 1`.
   */
  function TakeNBits(b: nat, p: nat, n: nat): (r: nat)
    ensures r == (b / Pow2(p)) % Pow2(n)
    ensures r < Pow2(n)
  {
    ShrIsDiv(b, p);
    AndLowMask(Shr(b, p), n);
    And(Shr(b, p), Shl(1, n) - 1)
  }

  lemma {:induction false} MulMono(a: nat, b: nat, d: nat)
    requires a <= b
    ensures a * d <= b * d
  {
    if a < b {
      MulMono(a, b - 1, d);
      assert b * d == (b - 1) * d + d;
    }
  }

  /** Quotient and remainder are determined by `x == q * d + r`, `r < d`. */
  lemma DivModUnique(x: nat, d: nat, q: nat, r: nat)
    requires d >= 1 && x == q * d + r && r < d
    ensures x / d == q && x % d == r
  {
    var q0, r0 := x / d, x % d;
    assert x == q0 * d + r0;
    if q0 < q {
      MulMono(q0 + 1, q, d);
      assert false;
    } else if q < q0 {
      MulMono(q + 1, q0, d);
      assert false;
    }
  }

  /** Dividing by 2m is halving and then dividing by m. */
  lemma DivModDouble(x: nat, m: nat)
    requires m >= 1
    ensures x / (2 * m) == (x / 2) / m
    ensures x % (2 * m) == 2 * ((x / 2) % m) + x % 2
  {
    var q := (x / 2) / m;
    var r := (x / 2) % m;
    assert x / 2 == q * m + r;
    assert x == 2 * (x / 2) + x % 2;
    assert q * (2 * m) == 2 * (q * m);
    DivModUnique(x, 2 * m, q, 2 * r + x % 2);
  }

  /** AND with the mask of the n low bits keeps the value modulo 2^n. */
  lemma {:induction false} AndLowMask(x: nat, n: nat)
    ensures And(x, Pow2(n) - 1) == x % Pow2(n)
  {
    if n == 0 {
    } else if x == 0 {
    } else {
      var m := Pow2(n - 1);
      assert Pow2(n) - 1 == 2 * (m - 1) + 1;
      assert (Pow2(n) - 1) / 2 == m - 1;
      AndLowMask(x / 2, n - 1);
      DivModDouble(x, m);
    }
  }

  /** Shifting right by p divides by 2^p. */
  lemma {:induction false} ShrIsDiv(x: nat, p: nat)
    ensures Shr(x, p) == x / Pow2(p)
  {
    if p > 0 {
      ShrIsDiv(x / 2, p - 1);
      DivModDouble(x, Pow2(p - 1));
    }
  }

  /** AND with an even mask: the low bit drops out and the rest halves. */
  lemma AndEvenMask(x: nat, m: nat)
    requires m >= 1
    ensures And(x, 2 * m) == 2 * And(x / 2, m)
  {
    assert (2 * m) / 2 == m && (2 * m) % 2 == 0;
  }

  /** AND with the single bit 2^k isolates bit k of x, left in place. */
  lemma {:induction false} AndSingleBit(x: nat, k: nat)
    ensures And(x, Pow2(k)) == Pow2(k) * ((x / Pow2(k)) % 2)
  {
    if k > 0 {
      var m := Pow2(k - 1);
      var t := ((x / 2) / m) % 2;
      AndEvenMask(x, m);
      AndSingleBit(x / 2, k - 1);
      DivModDouble(x, m);
      calc {
        And(x, Pow2(k));
        2 * And(x / 2, m);
        2 * (m * t);
        { MulAssoc2(m, t); }
        (2 * m) * t;
        Pow2(k) * ((x / Pow2(k)) % 2);
      }
    }
  }

  lemma MulAssoc2(m: nat, t: nat)
    ensures 2 * (m * t) == (2 * m) * t
  {
  }

  /** OR of a value shifted above bit k with a value below 2^k is their sum. */
  lemma {:induction false} OrShiftedIsSum(a: nat, k: nat, b: nat)
    requires b < Pow2(k)
    ensures Or(Shl(a, k), b) == Shl(a, k) + b
  {
    if k == 0 {
    } else if a == 0 || b == 0 {
    } else {
      var m := Pow2(k - 1);
      var x := a * Pow2(k);
      assert x == (a * m) * 2;
      DivModUnique(x, 2, a * m, 0);
      assert b / 2 < m;
      OrShiftedIsSum(a, k - 1, b / 2);
      assert Or(x, b) == 2 * (a * m + b / 2) + b % 2;
    }
  }
}

=== FILE: channels.dfy ===
/**
 The HY channel as far as its header states it: the eight open modes, the
 values it queues (data and signals), the per-channel follow-redirects
 flag, the recorded error, and its two independent FIFO queues.
 */
module Channels {
  import opened Bits
  import opened Wrappers
  import opened Frames
  import Queues

  /** Open modes: unions of the READ, WRITE and EMIT bits. */
  const LISTEN: nat := 0x00
  const READ: nat := 0x01
  const WRITE: nat := 0x02
  const READWRITE: nat := 0x03
  const EMIT: nat := 0x04
  const READEMIT: nat := 0x05
  const WRITEEMIT: nat := 0x06
  const READWRITEEMIT: nat := 0x07

  /** The mode that grants exactly the chosen rights. */
  function ModeOf(read: bool, write: bool, emit: bool): (m: nat)
    ensures m < 8
    ensures IsReadable(m) == read && IsWritable(m) == write && CanEmit(m) == emit
  {
    ModeBits(read, write, emit);
    Or(Or(if read then READ else LISTEN, if write then WRITE else LISTEN), if emit then EMIT else LISTEN)
  }

  /** The OR of the chosen rights, worked out for each of the eight choices. */
  lemma ModeBits(read: bool, write: bool, emit: bool)
    ensures var m := Or(Or(if read then READ else LISTEN, if write then WRITE else LISTEN), if emit then EMIT else LISTEN);
      m < 8 && IsReadable(m) == read && IsWritable(m) == write && CanEmit(m) == emit
  {
    var r := if read then READ else LISTEN;
    var w := if write then WRITE else LISTEN;
    var e := if emit then EMIT else LISTEN;
    var m := Or(Or(r, w), e);
    if read && write && emit {
      assert m == Or(Or(1, 2), 4) == 7;
      assert And(7, 1) == 1 && And(7, 2) == 2 && And(7, 4) == 4;
    } else if read && write {
      assert m == Or(Or(1, 2), 0) == 3;
      assert And(3, 1) == 1 && And(3, 2) == 2 && And(3, 4) == 0;
    } else if read && emit {
      assert m == Or(Or(1, 0), 4) == 5;
      assert And(5, 1) == 1 && And(5, 2) == 0 && And(5, 4) == 4;
    } else if write && emit {
      assert m == Or(Or(0, 2), 4) == 6;
      assert And(6, 1) == 0 && And(6, 2) == 2 && And(6, 4) == 4;
    } else if read {
      assert m == Or(Or(1, 0), 0) == 1;
      assert And(1, 1) == 1 && And(1, 2) == 0 && And(1, 4) == 0;
    } else if write {
      assert m == Or(Or(0, 2), 0) == 2;
      assert And(2, 1) == 0 && And(2, 2) == 2 && And(2, 4) == 0;
    } else if emit {
      assert m == Or(Or(0, 0), 4) == 4;
      assert And(4, 1) == 0 && And(4, 2) == 0 && And(4, 4) == 4;
    } else {
      assert m == Or(Or(0, 0), 0) == 0;
      assert And(0, 1) == 0 && And(0, 2) == 0 && And(0, 4) == 0;
    }
  }

  predicate IsReadable(mode: nat)
  {
    And(mode, READ) != 0
  }

  predicate IsWritable(mode: nat)
  {
    And(mode, WRITE) != 0
  }

  predicate CanEmit(mode: nat)
  {
    And(mode, EMIT) != 0
  }

  /** A mode is one of the eight declared combinations. */
  predicate IsValidMode(mode: nat)
  {
    mode in {LISTEN, READ, WRITE, READWRITE, EMIT, READEMIT, WRITEEMIT, READWRITEEMIT}
  }

  /** Each composite mode is the OR of its component bits. */
  lemma CompositeModes()
    ensures READWRITE == Or(READ, WRITE)
    ensures READEMIT == Or(READ, EMIT)
    ensures WRITEEMIT == Or(WRITE, EMIT)
    ensures READWRITEEMIT == Or(Or(READ, WRITE), EMIT)
  {
  }

  /** The eight modes are exactly the values 0..7, and each is rebuilt from its rights. */
  lemma ModesAreThreeBits(mode: nat)
    ensures IsValidMode(mode) <==> mode < 8
    ensures mode < 8 ==> ModeOf(IsReadable(mode), IsWritable(mode), CanEmit(mode)) == mode
  {
  }

  /** A received data message. */
  datatype ChannelData = ChannelData(priority: int, content: seq<byte>, ctype: ContentType)
  {
    /** The content type bit on the wire was BINARY. */
    function IsBinaryContent(): (r: bool)
      ensures r <==> ContentTypeValue(ctype) == 0x1
      ensures r != IsUtf8Content()
    {
      ctype == Binary
    }

    /** The content type bit on the wire was UTF8. */
    function IsUtf8Content(): (r: bool)
      ensures r <==> ContentTypeValue(ctype) == 0x0
    {
      ctype == Utf8
    }
  }

  /** A received signal; its type is a signal flag value. */
  datatype ChannelSignal = ChannelSignal(sigType: int, ctype: ContentType, content: seq<byte>)
  {
    /** The content type bit on the wire was BINARY. */
    function IsBinaryContent(): (r: bool)
      ensures r <==> ContentTypeValue(ctype) == 0x1
      ensures r != IsUtf8Content()
    {
      ctype == Binary
    }

    /** The content type bit on the wire was UTF8. */
    function IsUtf8Content(): (r: bool)
      ensures r <==> ContentTypeValue(ctype) == 0x0
    {
      ctype == Utf8
    }
  }

  /** Why a channel closed. */
  datatype ChannelError = ChannelError(reason: string, wasClean: bool, hadError: bool, wasDenied: bool)

  datatype Channel = Channel(
    destroyed: bool,
    followRedirects: bool,
    error: Option<ChannelError>,
    dataQueue: Queues.Queue<ChannelData>,
    signalQueue: Queues.Queue<ChannelSignal>)

  /** A new channel: not destroyed, no error recorded, both queues empty. */
  function NewChannel(followRedirects: bool): (c: Channel)
    ensures !c.destroyed && GetFollowRedirects(c) == followRedirects
    ensures CheckForChannelError(c) == Pass
    ensures IsDataEmpty(c) && IsSignalEmpty(c)
  {
    Channel(false, followRedirects, None, Queues.Empty(), Queues.Empty())
  }

  /** The per-channel flag; writing back what was read changes nothing. */
  function GetFollowRedirects(c: Channel): (r: bool)
    ensures SetFollowRedirects(c, r) == c
  {
    c.followRedirects
  }

  function SetFollowRedirects(c: Channel, value: bool): (d: Channel)
    ensures d.followRedirects == value
    ensures d.(followRedirects := c.followRedirects) == c
  {
    c.(followRedirects := value)
  }

  /** The getter reads back the last value set. */
  lemma FollowRedirectsReadBack(c: Channel, value: bool)
    ensures GetFollowRedirects(SetFollowRedirects(c, value)) == value
  {
  }

  /** Fails with the recorded error, if there is one. */
  function CheckForChannelError(c: Channel): (r: Outcome<ChannelError>)
    ensures r.Pass? <==> c.error.None?
    ensures r.Fail? ==> r.error == c.error.value
  {
    match c.error
    case None => Pass
    case Some(e) => Fail(e)
  }

  /**
   Destroy the channel, recording its cause (nil for a clean close). A
   channel is destroyed once: later calls leave it, and its final error, as
   they find it.
   */
  function Destroy(c: Channel, cause: Option<ChannelError>): (d: Channel)
    ensures d.destroyed
    ensures c.destroyed ==> d == c
    ensures !c.destroyed && cause.Some? ==> CheckForChannelError(d) == Fail(cause.value)
    ensures !c.destroyed && cause.None? ==> CheckForChannelError(d) == Pass
    ensures d.followRedirects == c.followRedirects && d.dataQueue == c.dataQueue && d.signalQueue == c.signalQueue
  {
    if c.destroyed then c else c.(destroyed := true, error := cause)
  }

  /** A series of destroy calls, applied in order. */
  function DestroyAll(c: Channel, causes: seq<Option<ChannelError>>): Channel
    decreases |causes|
  {
    if |causes| == 0 then c else DestroyAll(Destroy(c, causes[0]), causes[1..])
  }

  /** On a destroyed channel, further destroy calls change nothing. */
  lemma {:induction false} DestroyedStaysPut(c: Channel, causes: seq<Option<ChannelError>>)
    requires c.destroyed
    ensures DestroyAll(c, causes) == c
    decreases |causes|
  {
    if |causes| > 0 {
      DestroyedStaysPut(Destroy(c, causes[0]), causes[1..]);
    }
  }

  /** After any series of destroy calls, the check reports the first cause. */
  lemma FinalErrorKept(c: Channel, causes: seq<Option<ChannelError>>)
    requires !c.destroyed && |causes| > 0
    ensures var d := DestroyAll(c, causes);
            d.destroyed && (CheckForChannelError(d).Pass? <==> causes[0].None?)
            && (causes[0].Some? ==> CheckForChannelError(d) == Fail(causes[0].value))
  {
    DestroyedStaysPut(Destroy(c, causes[0]), causes[1..]);
  }

  function AddData(c: Channel, data: ChannelData): (d: Channel)
    ensures d.dataQueue.items == c.dataQueue.items + [data]
    ensures d == c.(dataQueue := d.dataQueue)
  {
    c.(dataQueue := Queues.Add(c.dataQueue, data))
  }

  /** Remove and return the oldest data, or nil when the data queue is empty. */
  function PopData(c: Channel): (r: (Option<ChannelData>, Channel))
    ensures IsDataEmpty(c) <==> r.0.None?
    ensures IsDataEmpty(c) ==> r.1 == c
    ensures !IsDataEmpty(c) ==> r.0 == Some(c.dataQueue.items[0]) && r.1.dataQueue.items == c.dataQueue.items[1..]
    ensures r.1 == c.(dataQueue := r.1.dataQueue)
  {
    var (x, rest) := Queues.Pop(c.dataQueue);
    (x, c.(dataQueue := rest))
  }

  /** The data queue holds nothing: it is the queue a new channel starts with. */
  function IsDataEmpty(c: Channel): (r: bool)
    ensures r <==> c.dataQueue == Queues.Empty()
  {
    Queues.IsEmpty(c.dataQueue)
  }

  function AddSignal(c: Channel, signal: ChannelSignal): (d: Channel)
    ensures d.signalQueue.items == c.signalQueue.items + [signal]
    ensures d == c.(signalQueue := d.signalQueue)
  {
    c.(signalQueue := Queues.Add(c.signalQueue, signal))
  }

  /** Remove and return the oldest signal, or nil when the signal queue is empty. */
  function PopSignal(c: Channel): (r: (Option<ChannelSignal>, Channel))
    ensures IsSignalEmpty(c) <==> r.0.None?
    ensures IsSignalEmpty(c) ==> r.1 == c
    ensures !IsSignalEmpty(c) ==> r.0 == Some(c.signalQueue.items[0]) && r.1.signalQueue.items == c.signalQueue.items[1..]
    ensures r.1 == c.(signalQueue := r.1.signalQueue)
  {
    var (x, rest) := Queues.Pop(c.signalQueue);
    (x, c.(signalQueue := rest))
  }

  /** The signal queue holds nothing: it is the queue a new channel starts with. */
  function IsSignalEmpty(c: Channel): (r: bool)
    ensures r <==> c.signalQueue == Queues.Empty()
  {
    Queues.IsEmpty(c.signalQueue)
  }

  /** Data and signal queues are not ordered against each other. */
  lemma QueuesIndependent(c: Channel, data: ChannelData, signal: ChannelSignal)
    ensures PopData(AddSignal(c, signal)).0 == PopData(c).0
    ensures PopSignal(AddData(c, data)).0 == PopSignal(c).0
    ensures AddSignal(AddData(c, data), signal) == AddData(AddSignal(c, signal), data)
  {
  }

  /** What the reader adds to the data queue, the application pops in insertion order. */
  method DrainData(c: Channel) returns (out: seq<ChannelData>, d: Channel)
    ensures out == c.dataQueue.items
    ensures IsDataEmpty(d)
    ensures d == c.(dataQueue := d.dataQueue)
  {
    out := [];
    d := c;
    while !IsDataEmpty(d)
      invariant out + d.dataQueue.items == c.dataQueue.items
      invariant d == c.(dataQueue := d.dataQueue)
      decreases |d.dataQueue.items|
    {
      var popped := PopData(d);
      out := out + [popped.0.value];
      d := popped.1;
    }
  }
}

=== FILE: connections.dfy ===
/**
 The HY connection's bookkeeping: its (host, port, auth) key, lifecycle
 flags, the pending and waiting open requests, the open channels, the
 channel reference count, opening and cancelling requests, and the bound
 on redirect attempts. Sockets, the handshake and the reader are not here.
 */
module Connections {
  import opened Wrappers
  import opened OpenRequests

  /** The destination a connection serves; connections are shared per key. */
  datatype Key = Key(host: string, port: nat, auth: string)

  /** The lifecycle flags of a connection. */
  datatype Status = Status(
    connecting: bool,
    connected: bool,
    handshaked: bool,
    destroying: bool,
    closing: bool,
    listening: bool,
    resolved: bool)

  datatype Connection = Connection(
    key: Key,
    status: Status,
    pendingOpenRequests: map<nat, OpenRequest>,
    pendingResolveRequests: map<string, OpenRequest>,
    openChannels: map<nat, ChannelHandle>,
    openWaitQueue: map<nat, seq<OpenRequest>>,
    resolveWaitQueue: map<string, seq<OpenRequest>>,
    channelRefCount: int)

  /** A new connection to a destination: no flags set, nothing pending, no channels. */
  function InitWithHost(host: string, port: nat, auth: string): (c: Connection)
    ensures c.key == Key(host, port, auth)
    ensures c.status == Status(false, false, false, false, false, false, false)
    ensures !HasHandshaked(c)
    ensures c.channelRefCount == 0
    ensures c.pendingOpenRequests == map[] && c.openWaitQueue == map[] && c.openChannels == map[]
    ensures c.pendingResolveRequests == map[] && c.resolveWaitQueue == map[]
  {
    Connection(Key(host, port, auth), Status(false, false, false, false, false, false, false),
               map[], map[], map[], map[], map[], 0)
  }

  /** Whether the handshake is done: the flag that decides how an open request is submitted. */
  function HasHandshaked(c: Connection): bool
  {
    c.status.handshaked
  }

  /** One more channel uses this connection. */
  function AllocChannel(c: Connection): (d: Connection)
    ensures d.channelRefCount == c.channelRefCount + 1
    ensures d.(channelRefCount := c.channelRefCount) == c
  {
    c.(channelRefCount := c.channelRefCount + 1)
  }

  /** Channel ch stops using this connection: one reference fewer, ch no longer open. */
  function DeallocChannel(c: Connection, ch: nat): (d: Connection)
    ensures d.channelRefCount == c.channelRefCount - 1
    ensures ch !in d.openChannels
    ensures forall other :: other in c.openChannels && other != ch ==>
              other in d.openChannels && d.openChannels[other] == c.openChannels[other]
    ensures d.openChannels.Keys == c.openChannels.Keys - {ch}
    ensures d.(channelRefCount := c.channelRefCount, openChannels := c.openChannels) == c
  {
    c.(channelRefCount := c.channelRefCount - 1, openChannels := c.openChannels - {ch})
  }

  function AllocChannels(c: Connection, n: nat): Connection
    decreases n
  {
    if n == 0 then c else AllocChannels(AllocChannel(c), n - 1)
  }

  function DeallocChannels(c: Connection, chs: seq<nat>): Connection
    decreases |chs|
  {
    if |chs| == 0 then c else DeallocChannels(DeallocChannel(c, chs[0]), chs[1..])
  }

  /** n allocations raise the reference count by exactly n and change nothing else. */
  lemma {:induction false} AllocChannelsCount(c: Connection, n: nat)
    ensures AllocChannels(c, n).channelRefCount == c.channelRefCount + n
    ensures AllocChannels(c, n).(channelRefCount := c.channelRefCount) == c
    decreases n
  {
    if n > 0 {
      AllocChannelsCount(AllocChannel(c), n - 1);
    }
  }

  /** Each deallocation lowers the reference count by exactly one. */
  lemma {:induction false} DeallocChannelsCount(c: Connection, chs: seq<nat>)
    ensures DeallocChannels(c, chs).channelRefCount == c.channelRefCount - |chs|
    ensures DeallocChannels(c, chs).pendingOpenRequests == c.pendingOpenRequests
    decreases |chs|
  {
    if |chs| > 0 {
      DeallocChannelsCount(DeallocChannel(c, chs[0]), chs[1..]);
    }
  }

  /** After N channels attach and the same N detach, the reference count is back where it was. */
  lemma AllocDeallocBalance(c: Connection, chs: seq<nat>)
    ensures DeallocChannels(AllocChannels(c, |chs|), chs).channelRefCount == c.channelRefCount
  {
    AllocChannelsCount(c, |chs|);
    DeallocChannelsCount(AllocChannels(c, |chs|), chs);
  }

  /** d differs from c at most in its wait queues and pending opens. */
  predicate OnlyRequestsChanged(c: Connection, d: Connection)
  {
    && d.key == c.key
    && d.status == c.status
    && d.pendingResolveRequests == c.pendingResolveRequests && d.resolveWaitQueue == c.resolveWaitQueue
    && d.openChannels == c.openChannels && d.channelRefCount == c.channelRefCount
  }

  /** Some request in s is the same request as req. */
  predicate InQueue(s: seq<OpenRequest>, req: OpenRequest)
  {
    exists i :: 0 <= i < |s| && SameRequest(s[i], req)
  }

  /** The connection still holds req: waiting for the handshake, or sent and awaiting a reply. */
  predicate Holds(c: Connection, req: OpenRequest)
  {
    || (req.ch in c.openWaitQueue && InQueue(c.openWaitQueue[req.ch], req))
    || (req.ch in c.pendingOpenRequests && SameRequest(c.pendingOpenRequests[req.ch], req))
  }

  /** Drop every copy of req from a wait queue, keeping the others in order. */
  function RemoveRequest(s: seq<OpenRequest>, req: OpenRequest): (t: seq<OpenRequest>)
    ensures !InQueue(t, req)
    ensures |t| <= |s|
    ensures forall i :: 0 <= i < |t| ==> t[i] in s
    ensures forall i :: 0 <= i < |s| && !SameRequest(s[i], req) ==> s[i] in t
    ensures !InQueue(s, req) ==> t == s
    decreases |s|
  {
    if |s| == 0 then []
    else
      var rest := RemoveRequest(s[1..], req);
      if SameRequest(s[0], req) then rest else [s[0]] + rest
  }

  /**
   Removal works request by request from the back as well: the requests kept
   stay in their queue order.
   */
  lemma {:induction false} RemoveRequestSnoc(s: seq<OpenRequest>, x: OpenRequest, req: OpenRequest)
    ensures RemoveRequest(s + [x], req) == RemoveRequest(s, req) + (if SameRequest(x, req) then [] else [x])
    decreases |s|
  {
    if |s| == 0 {
      assert s + [x] == [x];
      assert [x][1..] == [];
    } else {
      assert (s + [x])[0] == s[0];
      assert (s + [x])[1..] == s[1..] + [x];
      RemoveRequestSnoc(s[1..], x, req);
    }
  }

  /** The requests waiting for the handshake under channel id ch. */
  function Waiting(c: Connection, ch: nat): seq<OpenRequest>
  {
    if ch in c.openWaitQueue then c.openWaitQueue[ch] else []
  }

  /** Before the handshake: req joins the back of its channel id's wait queue. */
  function EnqueueOpen(c: Connection, req: OpenRequest): (d: Connection)
    ensures req.ch in d.openWaitQueue && d.openWaitQueue[req.ch] == Waiting(c, req.ch) + [req]
    ensures InQueue(d.openWaitQueue[req.ch], req)
    ensures d.openWaitQueue.Keys == c.openWaitQueue.Keys + {req.ch}
    ensures forall ch :: ch in c.openWaitQueue && ch != req.ch ==> d.openWaitQueue[ch] == c.openWaitQueue[ch]
    ensures OnlyRequestsChanged(c, d) && d.pendingOpenRequests == c.pendingOpenRequests
  {
    var waiting := Waiting(c, req.ch);
    var d := c.(openWaitQueue := c.openWaitQueue[req.ch := waiting + [req]]);
    assert SameRequest(d.openWaitQueue[req.ch][|waiting|], req);
    d
  }

  /** After the handshake: req becomes the pending open of its channel id, with its frame sent. */
  function SendOpen(c: Connection, req: OpenRequest): (d: Connection)
    ensures req.ch in d.pendingOpenRequests && d.pendingOpenRequests[req.ch] == SetSent(req, true)
    ensures SameRequest(d.pendingOpenRequests[req.ch], req)
    ensures d.pendingOpenRequests.Keys == c.pendingOpenRequests.Keys + {req.ch}
    ensures forall ch :: ch in c.pendingOpenRequests && ch != req.ch ==> d.pendingOpenRequests[ch] == c.pendingOpenRequests[ch]
    ensures OnlyRequestsChanged(c, d) && d.openWaitQueue == c.openWaitQueue
  {
    c.(pendingOpenRequests := c.pendingOpenRequests[req.ch := SetSent(req, true)])
  }

  /**
   Submit an open request. A destroying connection, or a channel id that
   already has an open in flight, refuses it. Before the handshake the
   request joins the wait queue for its channel id; after it, the request
   becomes the pending open for that id and its frame is sent.
   */
  function RequestOpen(c: Connection, req: OpenRequest): (r: (bool, Connection))
    ensures r.0 <==> !c.status.destroying && req.ch !in c.pendingOpenRequests
    ensures !r.0 ==> r.1 == c
    ensures r.0 ==> Holds(r.1, req)
    ensures r.0 && !HasHandshaked(c) ==>
              && r.1 == EnqueueOpen(c, req)
              && r.1.pendingOpenRequests == c.pendingOpenRequests
              && req.ch in r.1.openWaitQueue && r.1.openWaitQueue[req.ch] == Waiting(c, req.ch) + [req]
    ensures r.0 && HasHandshaked(c) ==>
              && r.1 == SendOpen(c, req)
              && r.1.openWaitQueue == c.openWaitQueue
              && req.ch in r.1.pendingOpenRequests && r.1.pendingOpenRequests[req.ch] == SetSent(req, true)
    ensures r.1.openWaitQueue.Keys == c.openWaitQueue.Keys + (if r.0 && !HasHandshaked(c) then {req.ch} else {})
    ensures r.1.pendingOpenRequests.Keys == c.pendingOpenRequests.Keys + (if r.0 && HasHandshaked(c) then {req.ch} else {})
    ensures OnlyRequestsChanged(c, r.1)
    ensures forall ch :: ch in c.openWaitQueue && ch != req.ch ==> ch in r.1.openWaitQueue && r.1.openWaitQueue[ch] == c.openWaitQueue[ch]
    ensures forall ch :: ch in c.pendingOpenRequests && ch != req.ch ==>
              ch in r.1.pendingOpenRequests && r.1.pendingOpenRequests[ch] == c.pendingOpenRequests[ch]
  {
    if c.status.destroying || req.ch in c.pendingOpenRequests then (false, c)
    else if !HasHandshaked(c) then (true, EnqueueOpen(c, req))
    else (true, SendOpen(c, req))
  }

  /**
   hasHandshaked decides how an accepted open goes out: it is YES exactly
   when the request becomes the pending open of its channel id at once, and
   NO exactly when it waits in that id's queue instead.
   */
  lemma HandshakeDecidesSending(c: Connection, req: OpenRequest)
    requires RequestOpen(c, req).0
    ensures HasHandshaked(c) <==> req.ch in RequestOpen(c, req).1.pendingOpenRequests
    ensures !HasHandshaked(c) <==> RequestOpen(c, req).1.openWaitQueue != c.openWaitQueue
  {
    var d := RequestOpen(c, req).1;
    if !HasHandshaked(c) {
      assert d.openWaitQueue[req.ch] == Waiting(c, req.ch) + [req];
      assert req.ch !in c.openWaitQueue || c.openWaitQueue[req.ch] != d.openWaitQueue[req.ch] by {
        if req.ch in c.openWaitQueue {
          assert |d.openWaitQueue[req.ch]| == |c.openWaitQueue[req.ch]| + 1;
        }
      }
    }
  }

  /** Drop every copy of req from its channel id's wait queue, if it has one. */
  function DropWaiting(c: Connection, req: OpenRequest): (d: Connection)
    ensures d.openWaitQueue.Keys == c.openWaitQueue.Keys
    ensures req.ch in c.openWaitQueue ==> d.openWaitQueue[req.ch] == RemoveRequest(c.openWaitQueue[req.ch], req)
    ensures !(req.ch in d.openWaitQueue && InQueue(d.openWaitQueue[req.ch], req))
    ensures forall ch :: ch in c.openWaitQueue && ch != req.ch ==> d.openWaitQueue[ch] == c.openWaitQueue[ch]
    ensures OnlyRequestsChanged(c, d) && d.pendingOpenRequests == c.pendingOpenRequests
  {
    if req.ch in c.openWaitQueue
    then c.(openWaitQueue := c.openWaitQueue[req.ch := RemoveRequest(c.openWaitQueue[req.ch], req)])
    else c
  }

  /** Drop the pending open of req's channel id if, and only if, it is req. */
  function DropPending(c: Connection, req: OpenRequest): (d: Connection)
    ensures d.pendingOpenRequests.Keys ==
              c.pendingOpenRequests.Keys - (if req.ch in c.pendingOpenRequests && SameRequest(c.pendingOpenRequests[req.ch], req) then {req.ch} else {})
    ensures forall ch :: ch in d.pendingOpenRequests ==> d.pendingOpenRequests[ch] == c.pendingOpenRequests[ch]
    ensures !(req.ch in d.pendingOpenRequests && SameRequest(d.pendingOpenRequests[req.ch], req))
    ensures OnlyRequestsChanged(c, d) && d.openWaitQueue == c.openWaitQueue
  {
    if req.ch in c.pendingOpenRequests && SameRequest(c.pendingOpenRequests[req.ch], req)
    then c.(pendingOpenRequests := c.pendingOpenRequests - {req.ch})
    else c
  }

  /**
   Try to cancel an open request. It succeeds exactly when the connection
   still holds the request, which it then no longer does. Only copies of
   req leave the wait queue of its channel id, the pending open of that id
   goes only if it is req, and nothing else changes.
   */
  function CancelOpen(c: Connection, req: OpenRequest): (r: (bool, Connection))
    ensures r.0 <==> Holds(c, req)
    ensures !Holds(r.1, req)
    ensures !r.0 ==> r.1 == c
    ensures OnlyRequestsChanged(c, r.1)
    ensures r.1.openWaitQueue.Keys == c.openWaitQueue.Keys
    ensures forall ch :: ch in c.openWaitQueue && ch != req.ch ==> r.1.openWaitQueue[ch] == c.openWaitQueue[ch]
    ensures req.ch in c.openWaitQueue ==> r.1.openWaitQueue[req.ch] == RemoveRequest(c.openWaitQueue[req.ch], req)
    ensures forall ch :: ch in r.1.pendingOpenRequests ==> ch in c.pendingOpenRequests && r.1.pendingOpenRequests[ch] == c.pendingOpenRequests[ch]
    ensures forall ch :: ch in c.pendingOpenRequests && !(ch == req.ch && SameRequest(c.pendingOpenRequests[ch], req)) ==>
              ch in r.1.pendingOpenRequests
  {
    if !Holds(c, req) then (false, c)
    else (true, DropPending(DropWaiting(c, req), req))
  }

  /** A second cancel of the same request finds nothing to cancel. */
  lemma CancelTwice(c: Connection, req: OpenRequest)
    ensures !CancelOpen(CancelOpen(c, req).1, req).0
  {
  }

  /** A request just accepted can be cancelled. */
  lemma CancelAfterRequest(c: Connection, req: OpenRequest)
    requires RequestOpen(c, req).0
    ensures CancelOpen(RequestOpen(c, req).1, req).0
  {
  }

  /**
   The answer to a REDIRECT reply: with following enabled and fewer than
   maxAttempts redirects taken so far, follow it as one more attempt;
   otherwise the open fails.
   */
  function RedirectAttempt(followRedirects: bool, attempts: nat, maxAttempts: nat): (r: Option<nat>)
    ensures r.Some? <==> followRedirects && attempts < maxAttempts
    ensures r.Some? ==> r.value == attempts + 1 && r.value <= maxAttempts
  {
    if followRedirects && attempts < maxAttempts then Some(attempts + 1) else None
  }

  /** Attempts taken after n REDIRECT replies in a row, stopping at the first refusal. */
  function AttemptsAfter(followRedirects: bool, attempts: nat, maxAttempts: nat, n: nat): (r: nat)
    requires attempts <= maxAttempts
    ensures attempts <= r <= maxAttempts
    ensures r - attempts <= n
    decreases n
  {
    if n == 0 then attempts
    else match RedirectAttempt(followRedirects, attempts, maxAttempts)
      case None => attempts
      case Some(next) => AttemptsAfter(followRedirects, next, maxAttempts, n - 1)
  }

  /** With following enabled, exactly min(n, maxAttempts) redirects are followed from a fresh start. */
  lemma {:induction false} RedirectsFollowedUpToBound(attempts: nat, maxAttempts: nat, n: nat)
    requires attempts <= maxAttempts
    ensures AttemptsAfter(true, attempts, maxAttempts, n) ==
              if attempts + n <= maxAttempts then attempts + n else maxAttempts
    decreases n
  {
    if n > 0 && attempts < maxAttempts {
      RedirectsFollowedUpToBound(attempts + 1, maxAttempts, n - 1);
    }
  }
}

=== FILE: frames.dfy ===
/**
 The HY frame: its opcode, flag and content-type enumerations, the layout
 of the combined flag/opcode/content-type header byte, the payload limit,
 and the frame record with its constructor and channel rewrite.
 */
module Frames {
  import opened Bits
  import opened Wrappers

  type byte = x: nat | x < 256

  /** Fixed header size and the offset of the length field. */
  const HEADER_SIZE: nat := 5
  const LENGTH_OFFSET: nat := 2

  /** Header byte layout: flag in bits 0-2, opcode in bits 3-5, content type in bit 6. */
  const FLAG_BITMASK: nat := 0x7
  const OP_BITPOS: nat := 3
  const OP_BITMASK: nat := Shl(1, 3) - 1
  const CTYPE_BITPOS: nat := 6
  const CTYPE_BITMASK: nat := Shl(0x01, CTYPE_BITPOS)

  /** Upper payload limit (10 KB). */
  const PAYLOAD_MAX_LIMIT: nat := 10 * 1024

  /** The channel id field holds an unsigned 32-bit integer. */
  const CHANNEL_LIMIT: nat := 0x1_0000_0000

  datatype Opcode = Noop | Open | Data | Signal | Resolve

  /** KEEPALIVE is another name for NOOP. */
  const KEEPALIVE: Opcode := Noop

  datatype OpenFlag = Allow | Redirect | Deny

  datatype SignalFlag = Emit | End | Error

  datatype ContentType = Utf8 | Binary

  /** Numeric opcode; every opcode fits the 3-bit opcode field. */
  function OpcodeValue(op: Opcode): (v: nat)
    ensures v <= OP_BITMASK
  {
    match op
    case Noop => 0x00
    case Open => 0x01
    case Data => 0x02
    case Signal => 0x03
    case Resolve => 0x04
  }

  /** The opcode with numeric value v, if any; only 0..4 are declared. */
  function OpcodeOf(v: nat): (r: Option<Opcode>)
    ensures r.Some? <==> v <= OpcodeValue(Resolve)
    ensures r.Some? ==> OpcodeValue(r.value) == v
  {
    if v == 0x00 then Some(Noop)
    else if v == 0x01 then Some(Open)
    else if v == 0x02 then Some(Data)
    else if v == 0x03 then Some(Signal)
    else if v == 0x04 then Some(Resolve)
    else None
  }

  /** Numeric open flag; every open flag fits the flag field. */
  function OpenFlagValue(f: OpenFlag): (v: nat)
    ensures v <= FLAG_BITMASK
  {
    match f
    case Allow => 0x0
    case Redirect => 0x1
    case Deny => 0x7
  }

  function OpenFlagOf(v: nat): (r: Option<OpenFlag>)
    ensures r.Some? <==> v in {0x0, 0x1, 0x7}
    ensures r.Some? ==> OpenFlagValue(r.value) == v
  {
    if v == 0x0 then Some(Allow)
    else if v == 0x1 then Some(Redirect)
    else if v == 0x7 then Some(Deny)
    else None
  }

  /** Numeric signal flag; every signal flag fits the flag field. */
  function SignalFlagValue(f: SignalFlag): (v: nat)
    ensures v <= FLAG_BITMASK
  {
    match f
    case Emit => 0x0
    case End => 0x1
    case Error => 0x7
  }

  function SignalFlagOf(v: nat): (r: Option<SignalFlag>)
    ensures r.Some? <==> v in {0x0, 0x1, 0x7}
    ensures r.Some? ==> SignalFlagValue(r.value) == v
  {
    if v == 0x0 then Some(Emit)
    else if v == 0x1 then Some(End)
    else if v == 0x7 then Some(Error)
    else None
  }

  /** Numeric content type; both fit the single content-type bit. */
  function ContentTypeValue(c: ContentType): (v: nat)
    ensures v < Pow2(1)
  {
    match c
    case Utf8 => 0x0
    case Binary => 0x1
  }

  function ContentTypeOf(v: nat): (r: Option<ContentType>)
    ensures r.Some? <==> v < Pow2(1)
    ensures r.Some? ==> ContentTypeValue(r.value) == v
  {
    if v == 0x0 then Some(Utf8)
    else if v == 0x1 then Some(Binary)
    else None
  }

  /** Every enumeration value survives the trip to its number and back. */
  lemma EnumRoundTrips(op: Opcode, of: OpenFlag, sf: SignalFlag, c: ContentType)
    ensures OpcodeOf(OpcodeValue(op)) == Some(op)
    ensures OpenFlagOf(OpenFlagValue(of)) == Some(of)
    ensures SignalFlagOf(SignalFlagValue(sf)) == Some(sf)
    ensures ContentTypeOf(ContentTypeValue(c)) == Some(c)
  {
  }

  /** The flag: `b & FLAG_BITMASK`, the three low bits. */
  function FlagOf(b: nat): (r: nat)
    ensures r == b % 8
    ensures r == TakeNBits(b, 0, 3)
  {
    ConstantValues();
    AndLowMask(b, 3);
    And(b, FLAG_BITMASK)
  }

  /** The opcode: `(b >> OP_BITPOS) & OP_BITMASK`, bits 3 to 5. */
  function OpOf(b: nat): (r: nat)
    ensures r == (b / 8) % 8
    ensures r == TakeNBits(b, OP_BITPOS, 3)
  {
    ConstantValues();
    ShrIsDiv(b, OP_BITPOS);
    AndLowMask(Shr(b, OP_BITPOS), 3);
    And(Shr(b, OP_BITPOS), OP_BITMASK)
  }

  /** The content type: `(b & CTYPE_BITMASK) >> CTYPE_BITPOS`, bit 6. */
  function CTypeOf(b: nat): (r: nat)
    ensures r == (b / 64) % 2
    ensures r == TakeNBits(b, CTYPE_BITPOS, 1)
  {
    ConstantValues();
    AndSingleBit(b, CTYPE_BITPOS);
    ShrIsDiv(And(b, CTYPE_BITMASK), CTYPE_BITPOS);
    Shr(And(b, CTYPE_BITMASK), CTYPE_BITPOS)
  }

  /** The numeric values of the shifted constants. */
  lemma ConstantValues()
    ensures Pow2(1) == 2 && Pow2(3) == 8 && Pow2(6) == 64
    ensures OP_BITMASK == 7 && CTYPE_BITMASK == 0x40
  {
    assert Pow2(3) == 8;
    assert Pow2(6) == 64;
  }

  /** The three field masks do not overlap and together cover bits 0 to 6. */
  lemma MasksDisjoint()
    ensures And(FLAG_BITMASK, Shl(OP_BITMASK, OP_BITPOS)) == 0
    ensures And(FLAG_BITMASK, CTYPE_BITMASK) == 0
    ensures And(Shl(OP_BITMASK, OP_BITPOS), CTYPE_BITMASK) == 0
    ensures Or(Or(FLAG_BITMASK, Shl(OP_BITMASK, OP_BITPOS)), CTYPE_BITMASK) == 0x7F
  {
    ConstantValues();
    assert Shl(OP_BITMASK, OP_BITPOS) == 0x38;
    AndLowMask(0x38, 3);
    AndLowMask(0x40, 3);
    AndSingleBit(0x38, 6);
    OrShiftedIsSum(7, 3, 7);
    OrShiftedIsSum(1, 6, 0x3F);
  }

  /**
   Combine a flag, an opcode and a content type into one header byte:
   `(ctype << CTYPE_BITPOS) | (op << OP_BITPOS) | flag`. Each field is read
   back unchanged and bit 7 stays clear.
   */
  function PackHeader(flag: nat, op: nat, ctype: nat): (b: nat)
    requires flag <= FLAG_BITMASK && op <= OP_BITMASK && ctype < Pow2(1)
    ensures b < 0x80
    ensures b == flag + 8 * op + 64 * ctype
  {
    ConstantValues();
    assert Shl(op, OP_BITPOS) == 8 * op && Shl(ctype, CTYPE_BITPOS) == 64 * ctype;
    OrShiftedIsSum(op, OP_BITPOS, flag);
    OrShiftedIsSum(ctype, CTYPE_BITPOS, 8 * op + flag);
    Or(Shl(ctype, CTYPE_BITPOS), Or(Shl(op, OP_BITPOS), flag))
  }

  /** Packing then unpacking gives each field back unchanged. */
  lemma UnpackPack(flag: nat, op: nat, ctype: nat)
    requires flag <= FLAG_BITMASK && op <= OP_BITMASK && ctype < Pow2(1)
    ensures var b := PackHeader(flag, op, ctype);
            FlagOf(b) == flag && OpOf(b) == op && CTypeOf(b) == ctype
  {
    ConstantValues();
    FieldsOfSum(flag, op, ctype);
  }

  /** Unpacking then packing a byte below 0x80 gives the byte back. */
  lemma PackUnpack(b: nat)
    requires b < 0x80
    ensures PackHeader(FlagOf(b), OpOf(b), CTypeOf(b)) == b
  {
    SumOfFields(b);
  }

  /** The fields of flag + 8 op + 64 ctype are read back by division and remainder. */
  lemma FieldsOfSum(flag: nat, op: nat, ctype: nat)
    requires flag < 8 && op < 8 && ctype < 2
    ensures var b := flag + 8 * op + 64 * ctype;
            b < 0x80 && b % 8 == flag && (b / 8) % 8 == op && (b / 64) % 2 == ctype
  {
    var b := flag + 8 * op + 64 * ctype;
    DivModUnique(b, 8, op + 8 * ctype, flag);
    DivModUnique(op + 8 * ctype, 8, ctype, op);
    DivModUnique(b, 64, ctype, flag + 8 * op);
  }

  /** A byte below 0x80 is the sum of its three fields. */
  lemma SumOfFields(b: nat)
    requires b < 0x80
    ensures b == b % 8 + 8 * ((b / 8) % 8) + 64 * ((b / 64) % 2)
  {
    var q := b / 8;
    DivModUnique(b, 8, q, b % 8);
    DivModUnique(q, 8, q / 8, q % 8);
    DivModUnique(b, 64, q / 8, b % 8 + 8 * (q % 8));
  }

  /** The macro with (p, n) = (0, 3), (3, 3), (6, 1) recovers the packed fields. */
  lemma TakeNBitsRecoversFields(flag: nat, op: nat, ctype: nat)
    requires flag <= FLAG_BITMASK && op <= OP_BITMASK && ctype < Pow2(1)
    ensures TakeNBits(PackHeader(flag, op, ctype), 0, 3) == flag
    ensures TakeNBits(PackHeader(flag, op, ctype), 3, 3) == op
    ensures TakeNBits(PackHeader(flag, op, ctype), 6, 1) == ctype
  {
    UnpackPack(flag, op, ctype);
  }

  /** The typed content of a header byte. The meaning of flag depends on op. */
  datatype Header = Header(op: Opcode, flag: nat, ctype: ContentType)

  function EncodeHeader(h: Header): (b: byte)
    requires h.flag <= FLAG_BITMASK
    ensures b < 0x80
  {
    PackHeader(h.flag, OpcodeValue(h.op), ContentTypeValue(h.ctype))
  }

  /** Read a header byte; an opcode field outside the declared opcodes is refused. */
  function DecodeHeader(b: byte): (r: Option<Header>)
    ensures r.Some? <==> OpOf(b) <= OpcodeValue(Resolve)
    ensures r.Some? ==> r.value.flag <= FLAG_BITMASK
  {
    match OpcodeOf(OpOf(b))
    case None => None
    case Some(op) =>
      var ctype := if CTypeOf(b) == 0 then Utf8 else Binary;
      Some(Header(op, FlagOf(b), ctype))
  }

  lemma HeaderRoundTrip(h: Header)
    requires h.flag <= FLAG_BITMASK
    ensures DecodeHeader(EncodeHeader(h)) == Some(h)
  {
    EnumRoundTrips(h.op, Allow, Emit, h.ctype);
    UnpackPack(h.flag, OpcodeValue(h.op), ContentTypeValue(h.ctype));
  }

  lemma HeaderBytesRoundTrip(b: byte)
    requires b < 0x80 && DecodeHeader(b).Some?
    ensures EncodeHeader(DecodeHeader(b).value) == b
  {
    PackUnpack(b);
  }

  /** One frame: channel id, content type, opcode, flag and payload. */
  datatype Frame = Frame(ch: nat, ctype: ContentType, op: Opcode, flag: nat, payload: seq<byte>)

  ghost predicate ValidFrame(f: Frame)
  {
    f.ch < CHANNEL_LIMIT && f.flag <= FLAG_BITMASK && |f.payload| <= PAYLOAD_MAX_LIMIT
  }

  /**
   Build a frame. A payload over the limit yields no frame; the channel id
   is stored as an unsigned 32-bit integer.
   */
  function NewFrame(ch: nat, ctype: ContentType, op: Opcode, flag: nat, payload: seq<byte>): (r: Option<Frame>)
    requires flag <= FLAG_BITMASK
    ensures r.Some? <==> |payload| <= PAYLOAD_MAX_LIMIT
    ensures r.Some? ==> ValidFrame(r.value)
    ensures r.Some? ==> r.value.ch == ch % CHANNEL_LIMIT && r.value.payload == payload
    ensures r.Some? ==> DecodeHeader(HeaderByte(r.value)) == Some(Header(op, flag, ctype))
  {
    if |payload| > PAYLOAD_MAX_LIMIT then None
    else
      var f := Frame(ch % CHANNEL_LIMIT, ctype, op, flag, payload);
      HeaderRoundTrip(Header(op, flag, ctype));
      Some(f)
  }

  /** The flag/opcode/content-type byte of a frame. */
  function HeaderByte(f: Frame): (b: byte)
    requires f.flag <= FLAG_BITMASK
    ensures b < 0x80
  {
    EncodeHeader(Header(f.op, f.flag, f.ctype))
  }

  /** Frame size in bytes: the header followed by the payload. */
  function Size(f: Frame): (n: nat)
    requires ValidFrame(f)
    ensures HEADER_SIZE <= n <= HEADER_SIZE + PAYLOAD_MAX_LIMIT
    ensures n - HEADER_SIZE == |f.payload|
  {
    HEADER_SIZE + |f.payload|
  }

  /** Rewrite the channel id of a built frame, leaving the rest as it was. */
  function SetChannel(f: Frame, value: nat): (g: Frame)
    requires ValidFrame(f)
    ensures ValidFrame(g)
    ensures g.ch == value % CHANNEL_LIMIT
    ensures g.op == f.op && g.flag == f.flag && g.ctype == f.ctype && g.payload == f.payload
  {
    f.(ch := value % CHANNEL_LIMIT)
  }

  /** A rewrite does not touch the header byte or the size. */
  lemma SetChannelKeepsHeader(f: Frame, value: nat)
    requires ValidFrame(f)
    ensures HeaderByte(SetChannel(f, value)) == HeaderByte(f)
    ensures Size(SetChannel(f, value)) == Size(f)
  {
  }

  /** Only the last of two rewrites is visible. */
  lemma SetChannelLastWins(f: Frame, a: nat, b: nat)
    requires ValidFrame(f)
    ensures SetChannel(SetChannel(f, a), b) == SetChannel(f, b)
  {
  }
}

=== FILE: open_requests.dfy ===
/**
 The HY open request: five read-only fields fixed at construction (the
 requesting channel, the channel id, path, token and the frame to send)
 and one mutable flag telling whether the frame has reached the wire.
 */
module OpenRequests {
  import opened Frames

  /** The identity of the channel object that owns a request. */
  type ChannelHandle = nat

  datatype OpenRequest = OpenRequest(
    channel: ChannelHandle,
    ch: nat,
    path: string,
    token: string,
    frame: Frame,
    sent: bool)

  /** Two values describe the same request: all read-only fields agree. */
  predicate SameRequest(a: OpenRequest, b: OpenRequest)
  {
    a.channel == b.channel && a.ch == b.ch && a.path == b.path && a.token == b.token && a.frame == b.frame
  }

  /** A new request; the sent flag starts cleared, as a new object's fields do. */
  function InitWith(channel: ChannelHandle, ch: nat, path: string, token: string, frame: Frame): (r: OpenRequest)
    ensures r.channel == channel && r.ch == ch && r.path == path && r.token == token && r.frame == frame
    ensures !r.sent
  {
    OpenRequest(channel, ch, path, token, frame, false)
  }

  function SetSent(r: OpenRequest, value: bool): (s: OpenRequest)
    ensures s.sent == value
    ensures SameRequest(r, s)
  {
    r.(sent := value)
  }

  /** Apply a series of sent-flag updates. */
  function SetSentAll(r: OpenRequest, values: seq<bool>): (s: OpenRequest)
    decreases |values|
  {
    if |values| == 0 then r else SetSentAll(SetSent(r, values[0]), values[1..])
  }

  /**
   However often the sent flag is set, the read-only fields keep the values
   given at construction and the flag holds the last value set.
   */
  lemma {:induction false} ReadOnlyFieldsNeverChange(r: OpenRequest, values: seq<bool>)
    ensures SameRequest(r, SetSentAll(r, values))
    ensures |values| > 0 ==> SetSentAll(r, values).sent == values[|values| - 1]
    ensures |values| == 0 ==> SetSentAll(r, values) == r
    decreases |values|
  {
    if |values| > 0 {
      ReadOnlyFieldsNeverChange(SetSent(r, values[0]), values[1..]);
    }
  }

  /** Setting the flag twice keeps only the second value. */
  lemma SetSentLastWins(r: OpenRequest, a: bool, b: bool)
    ensures SetSent(SetSent(r, a), b) == SetSent(r, b)
  {
  }
}

=== FILE: queues.dfy ===
/**
 An insertion-ordered queue, as each channel keeps one for data and one
 for signals: add at the back, pop from the front, pop on an empty queue
 gives nil and changes nothing.
 */
module Queues {
  import opened Wrappers

  datatype Queue<T> = Queue(items: seq<T>)

  function Empty<T>(): (q: Queue<T>)
    ensures IsEmpty(q)
  {
    Queue([])
  }

  predicate IsEmpty<T>(q: Queue<T>)
  {
    |q.items| == 0
  }

  /** Add an item at the back; everything already queued stays ahead of it. */
  function Add<T>(q: Queue<T>, x: T): (r: Queue<T>)
    ensures !IsEmpty(r)
    ensures |r.items| == |q.items| + 1
    ensures r.items[..|q.items|] == q.items && r.items[|q.items|] == x
  {
    Queue(q.items + [x])
  }

  /** Remove and return the oldest item, or nil with the queue unchanged. */
  function Pop<T>(q: Queue<T>): (r: (Option<T>, Queue<T>))
    ensures IsEmpty(q) <==> r.0 == None
    ensures IsEmpty(q) ==> r.1 == q
    ensures !IsEmpty(q) ==> r.0 == Some(q.items[0]) && [q.items[0]] + r.1.items == q.items
  {
    if |q.items| == 0 then (None, q)
    else (Some(q.items[0]), Queue(q.items[1..]))
  }

  /** Add every item of xs in order. */
  function AddAll<T>(q: Queue<T>, xs: seq<T>): (r: Queue<T>)
    decreases |xs|
  {
    if |xs| == 0 then q else AddAll(Add(q, xs[0]), xs[1..])
  }

  /** Pop until the queue is empty; the items come out oldest first. */
  function Drain<T>(q: Queue<T>): (out: seq<T>)
    ensures |out| == |q.items|
    ensures forall i :: 0 <= i < |out| ==> out[i] == q.items[i]
    decreases |q.items|
  {
    match Pop(q)
    case (None, _) => []
    case (Some(x), rest) => [x] + Drain(rest)
  }

  /** Adding xs to a queue puts them behind what it already held, in order. */
  lemma {:induction false} AddAllAppends<T>(q: Queue<T>, xs: seq<T>)
    ensures AddAll(q, xs).items == q.items + xs
    decreases |xs|
  {
    if |xs| != 0 {
      AddAllAppends(Add(q, xs[0]), xs[1..]);
      assert q.items + [xs[0]] + xs[1..] == q.items + xs;
    }
  }

  /** First in, first out: what is added to an empty queue comes out in insertion order. */
  lemma FifoOrder<T>(xs: seq<T>)
    ensures Drain(AddAll(Empty(), xs)) == xs
  {
    AddAllAppends(Empty(), xs);
  }

  /** Adding behind a non-empty queue does not change which item pops next. */
  lemma AddKeepsHead<T>(q: Queue<T>, x: T)
    ensures IsEmpty(q) ==> Pop(Add(q, x)) == (Some(x), q)
    ensures !IsEmpty(q) ==> Pop(Add(q, x)).0 == Pop(q).0
    ensures !IsEmpty(q) ==> Pop(Add(q, x)).1 == Add(Pop(q).1, x)
  {
    if !IsEmpty(q) {
      assert q.items[1..] + [x] == (q.items + [x])[1..];
    }
  }
}

=== FILE: registry.dfy ===
/**
 Process-wide state of the HY connection class: the cache of connections
 by (host, port, auth) and the class-level follow-redirects flag.
 Connections are named by the id they were registered under.
 */
module ConnectionRegistry {
  import opened Connections

  datatype Registry = Registry(
    byKey: map<Key, nat>,
    connections: map<nat, Connection>,
    nextId: nat,
    followRedirects: bool)

  /** Every key names a registered connection for that key; ids are below nextId. */
  ghost predicate Valid(reg: Registry)
  {
    && (forall k :: k in reg.byKey ==> reg.byKey[k] in reg.connections && reg.connections[reg.byKey[k]].key == k)
    && (forall id :: id in reg.connections ==> id < reg.nextId)
  }

  function NewRegistry(followRedirects: bool): (reg: Registry)
    ensures Valid(reg)
    ensures reg.byKey == map[] && reg.connections == map[] && reg.nextId == 0
    ensures reg.followRedirects == followRedirects
  {
    Registry(map[], map[], 0, followRedirects)
  }

  /**
   The connection registered for (host, port, auth); only when there is none
   is a new connection created and registered under a fresh id.
   */
  function GetConnectionWithHost(reg: Registry, host: string, port: nat, auth: string): (r: (nat, Registry))
    requires Valid(reg)
    ensures Valid(r.1)
    ensures Key(host, port, auth) in r.1.byKey && r.1.byKey[Key(host, port, auth)] == r.0
    ensures r.0 in r.1.connections && r.1.connections[r.0].key == Key(host, port, auth)
    ensures Key(host, port, auth) in reg.byKey ==> r == (reg.byKey[Key(host, port, auth)], reg)
    ensures Key(host, port, auth) !in reg.byKey ==>
              && r.0 !in reg.connections
              && r.1.connections == reg.connections[r.0 := InitWithHost(host, port, auth)]
              && r.1.byKey == reg.byKey[Key(host, port, auth) := r.0]
    ensures r.1.followRedirects == reg.followRedirects
  {
    var key := Key(host, port, auth);
    if key in reg.byKey then (reg.byKey[key], reg)
    else
      var id := reg.nextId;
      (id, Registry(reg.byKey[key := id], reg.connections[id := InitWithHost(host, port, auth)],
                    id + 1, reg.followRedirects))
  }

  /** Asking again for the same destination yields the same connection and changes nothing. */
  lemma GetConnectionIdempotent(reg: Registry, host: string, port: nat, auth: string)
    requires Valid(reg)
    ensures var (id, reg') := GetConnectionWithHost(reg, host, port, auth);
            GetConnectionWithHost(reg', host, port, auth) == (id, reg')
  {
  }

  /** Different destinations never share a connection. */
  lemma DistinctKeysDistinctConnections(reg: Registry, k1: Key, k2: Key)
    requires Valid(reg) && k1 in reg.byKey && k2 in reg.byKey && k1 != k2
    ensures reg.byKey[k1] != reg.byKey[k2]
  {
  }

  /** Looking up another destination leaves an earlier lookup's connection in place. */
  lemma GetConnectionKeepsOthers(reg: Registry, host: string, port: nat, auth: string, k: Key)
    requires Valid(reg) && k in reg.byKey
    ensures var reg' := GetConnectionWithHost(reg, host, port, auth).1;
            k in reg'.byKey && reg'.byKey[k] == reg.byKey[k]
            && reg'.connections[reg.byKey[k]] == reg.connections[reg.byKey[k]]
  {
  }

  /** The class-level flag; writing back what was read changes nothing. */
  function GetFollowRedirects(reg: Registry): (r: bool)
    ensures SetFollowRedirects(reg, r) == reg
  {
    reg.followRedirects
  }

  /** Set the class-level flag; no connection is touched. */
  function SetFollowRedirects(reg: Registry, value: bool): (r: Registry)
    ensures r.followRedirects == value
    ensures r.byKey == reg.byKey && r.connections == reg.connections && r.nextId == reg.nextId
    ensures Valid(reg) ==> Valid(r)
  {
    reg.(followRedirects := value)
  }

  /** The getter reads back the last value set. */
  lemma FollowRedirectsReadBack(reg: Registry, value: bool)
    ensures GetFollowRedirects(SetFollowRedirects(reg, value)) == value
  {
  }

  /** Record one more channel on a registered connection; the others are unchanged. */
  function AllocChannelOn(reg: Registry, id: nat): (r: Registry)
    requires Valid(reg) && id in reg.connections
    ensures Valid(r)
    ensures id in r.connections && r.connections[id].channelRefCount == reg.connections[id].channelRefCount + 1
    ensures r.connections[id].(channelRefCount := reg.connections[id].channelRefCount) == reg.connections[id]
    ensures forall other :: other in reg.connections && other != id ==>
              other in r.connections && r.connections[other] == reg.connections[other]
    ensures r.connections.Keys == reg.connections.Keys
    ensures r.(connections := reg.connections) == reg
  {
    reg.(connections := reg.connections[id := AllocChannel(reg.connections[id])])
  }

  /** Channel ch leaves a registered connection; the others are unchanged. */
  function DeallocChannelOn(reg: Registry, id: nat, ch: nat): (r: Registry)
    requires Valid(reg) && id in reg.connections
    ensures Valid(r)
    ensures id in r.connections && r.connections[id].channelRefCount == reg.connections[id].channelRefCount - 1
    ensures ch !in r.connections[id].openChannels
    ensures r.connections[id].openChannels.Keys == reg.connections[id].openChannels.Keys - {ch}
    ensures forall other :: other in r.connections[id].openChannels ==>
              r.connections[id].openChannels[other] == reg.connections[id].openChannels[other]
    ensures r.connections[id].(channelRefCount := reg.connections[id].channelRefCount,
                               openChannels := reg.connections[id].openChannels) == reg.connections[id]
    ensures forall other :: other in reg.connections && other != id ==>
              other in r.connections && r.connections[other] == reg.connections[other]
    ensures r.connections.Keys == reg.connections.Keys
    ensures r.(connections := reg.connections) == reg
  {
    reg.(connections := reg.connections[id := DeallocChannel(reg.connections[id], ch)])
  }
}

=== FILE: wrappers.dfy ===
/**
 Results shared by the model: `Option` stands for an
 Objective-C reference that may be nil, `Outcome` for a check that either
 passes or raises.
 */
module Wrappers {

  datatype Option<+T> = None | Some(value: T)

  datatype Outcome<+E> = Pass | Fail(error: E)
}
